=== FILE: README.md ===
# Edurack authentication core, in Dafny

This project models the authentication back end of the Edurack service.
That back end is the Express router `routes/auth.js` together with the
Mongoose `User` schema in `models/User.js`. Each of the four handlers
(register, login, fetch the current user, change password) is a pure
function. It takes the user store, the parsed request body and what the
handler draws from outside (the hasher, the random draws, the new `_id`,
the clock). It returns the HTTP status, the JSON body and the store the
request leaves behind.

Layout, one module per file:

- `common.dfy`: `Option` and `Result`.
- `js_string.dfy`: the JavaScript string operations the handlers use.
  These are `trim` over the full ECMAScript white-space set, ASCII
  `toLowerCase`, UTF-16 `length`, and the truthiness tests on request
  fields (`!x` and `!x?.trim()`).
- `crypto.dfy`: bcrypt as an uninterpreted hasher. `compare` is "hashing
  the candidate gives the stored digest".
- `user_model.dfy`: the `User` schema. It covers the two enums, the
  required fields, the `trim`/`lowercase` setters, the defaults, and
  document construction with its validators.
- `user_store.dfy`: the collection as a sequence in natural order. It
  covers `findOne` (first match), the unique indexes on `_id`, `userID`,
  `email` and `phone`, `save` as validate-then-insert, and the in-place
  password update.
- `user_id.dfy`: `generateUniqueUserID`. `Math.random` becomes a supplied
  sequence of draws. A result of `None` means the loop has not yet found a
  free candidate when the draws run out.
- `auth_routes.dfy`: the handlers and their replies, with the messages
  spelt as the router spells them.
- `auth_properties.dfy`: properties that span several calls. These are
  duplicate precedence, re-registration, login and fetch after
  registration, non-enumeration at login, the order of the change-password
  checks, and what a password change does to later logins and tokens.

The store invariant `UserStore.Valid` has two parts. No two documents
share an `_id`, `userID`, `email` or `phone`. Every document is well
formed: its required strings are non-empty and trimmed, and its e-mail is
lower case. Both register and change-password preserve `Valid`. The
success body of register and login is a `PublicUser`. That type has
exactly the seven public fields and no slot for a password. A stored
password is a `Digest`, a type distinct from the plaintext string. The
body of GET /user is a `UserView`, which holds every field but the
password.

Points where the handlers behave in a way that is easy to misread. The
model follows the code on each:

- **Duplicate precedence is per document.** Register asks `findOne` for
  one document matching the normalised e-mail or the trimmed phone. It then
  tests that one document's e-mail. The reply is a 400 with the e-mail
  message when that document holds the e-mail, and with the phone message
  otherwise. The store is unchanged either way (`AuthRoutes.CheckAndCreate`).
  Which matching document `findOne` picks is up to the database. The model
  picks the first in natural (insertion) order. Under that choice, an
  earlier document holding the phone makes the reply the phone message,
  even when a later document holds the e-mail
  (`AuthProperties.PhoneMessageWhenFirstMatchHoldsOnlyPhone`).
- **A write-time duplicate phone is a 500.** The catch block recognises
  only `email` and `userID` duplicates. A duplicate phone or `_id` falls
  through to the 500 that echoes the error. In a sequential run on a valid
  store with a fresh `_id` this cannot happen (`AuthProperties.RegisterWriteNeverConflicts`).
- **The identifier loop has no retry cap.** It loops until it finds a free
  candidate, so no reply says the identifiers ran out. The only 500 about
  identifiers is the write-time `userID` conflict.
- **An unknown class or exam is a 500.** The presence check only asks
  that `studentClass` and `exam` be non-empty. A value outside the
  schema's enumerations fails validation at `save`, and the catch block
  answers with the 500 that echoes the validation error. Nothing is stored
  (`AuthProperties.RegisterRejectsUnknownEnum`).
- **Registration has no minimum password length.** Only change-password
  demands 8 UTF-16 code units.

## Model

| member | source | states |
|---|---|---|
| JsString.Trim | routes/auth.js:44-57 | `trim` leaves no white space at either end and never lengthens the string; the result is empty exactly when the input is all white space; an already trimmed string is returned unchanged |
| JsString.TrimDecomposition | routes/auth.js:56-57 | every string is its trimmed form with a run of white space before and after it |
| JsString.TrimStrips | routes/auth.js:56-57 | trimming a trimmed core wrapped in white space gives back exactly that core |
| JsString.NormalizeEmail | routes/auth.js:56 | the normalised e-mail is lower case and trimmed; an address already in that form is kept; it is empty exactly when the input is all white space |
| JsString.LowerTrimCommute | models/User.js:17-23 | lower-casing and trimming commute, so the schema's setters and the handler's normalisation agree whichever order they run in |
| JsString.LowerKeepsTrimmed | models/User.js:21-22 | lower-casing a string with no surrounding white space adds none |
| JsString.NormalizeEmailIgnoresDecoration | routes/auth.js:137 | an address with extra surrounding white space and different letter case normalises to the lower-cased address |
| JsString.ToLower | routes/auth.js:56 | `toLowerCase` keeps the length and leaves no upper-case letter; each ASCII capital becomes its lower-case letter, every other character stays where it was, and lower-case text comes back unchanged |
| JsString.Blank | routes/auth.js:44-50 | the test `!x?.trim()` holds exactly when the field is absent or all white space |
| JsString.Truthy | routes/auth.js:47-49 | a field that passes the trimmed presence test `!x?.trim()` also passes the plain test `!x`, so the two kinds of check agree on every non-blank field |
| Crypto.VerifyExactlyTheHashedPassword | routes/auth.js:144 | under an injective hash, `bcrypt.compare` against a stored digest accepts exactly the password that digest was made from |
| JsString.Utf16Length | routes/auth.js:201 | JavaScript `length` lies between the character count and twice it, equals the count for text in the Basic Multilingual Plane, and is one unit for a Basic Multilingual Plane character and two for an astral one |
| JsString.Utf16LengthConcat | routes/auth.js:201 | the length of a concatenation is the sum of the lengths, so with the one-character case it fixes the exact count of mixed text |
| JsString.Utf16LengthExample | routes/auth.js:201 | `"ab"` followed by an astral emoji has length 4 |
| UserModel.ParseStudentClass | models/User.js:34-38 | the `studentClass` enum accepts a string exactly when it is `11th`, `12th` or `Dropper`, and yields the class of that name |
| UserModel.ParseExam | models/User.js:39-43 | the `exam` enum accepts a string exactly when it is `JEE` or `NEET`, and yields the exam of that name |
| UserModel.Construct | models/User.js:5-81 | building a document succeeds exactly when every required field holds more than white space and both enums hold an allowed value; on success it is well formed, carries the draft through the setters, has the schema defaults and the given `_id` and timestamps; on failure at least one path is named |
| UserStore.FindOne | routes/auth.js:60-62 | `findOne` returns a matching document with no match before it, and returns nothing exactly when no document matches |
| UserStore.FindOneUnique | models/User.js:6-29 | in a store with unique keys, a query on one unique key finds the one document holding that value |
| UserStore.Insert | models/User.js:6-29 | an insert succeeds exactly when no unique index already holds the new document's value, and then it appends the document; otherwise it reports the first clashing index with the offending value; a valid store stays valid |
| UserStore.InsertFreshKeys | models/User.js:6-29 | a document whose `_id`, `userID`, `email` and `phone` are all new to the store inserts |
| UserStore.Save | routes/auth.js:81-93 | `save` succeeds exactly when the draft validates and no unique index holds the constructed document's values; a validation error means the draft fails validation; on success the store gains exactly the constructed, well-formed, defaulted document at its end and stays valid; a duplicate-key error names an index that really clashes |
| UserStore.SetPassword | routes/auth.js:205-209 | the password change alters only the digest and `updatedAt` of the one document, leaves every other document as it was, and keeps the store valid |
| UserIdAllocator.Candidate | routes/auth.js:16-20 | nine draws spell an identifier of the form `Edu-` plus nine characters of `A-Z0-9`, character by character from the alphabet |
| UserIdAllocator.FirstFreeRound | routes/auth.js:15-25 | the retry loop stops at the first round whose candidate no stored user holds, and finds none exactly when every candidate is taken |
| UserIdAllocator.GenerateUniqueUserID | routes/auth.js:12-26 | a returned identifier has the generated format and no stored user holds it; there is no result exactly when every candidate the draws spell is taken |
| UserIdAllocator.EveryUserIDIsACandidate | routes/auth.js:13-20 | every string of the generated format is spelt by some round of draws, so the format describes exactly what the generator can produce |
| AuthRoutes.UserIDIsTrimmed | models/User.js:6-11 | a generated identifier has no surrounding white space, so the schema's `trim` setter leaves it unchanged |
| AuthRoutes.MissingRequired | routes/auth.js:43-53 | when the presence check passes, every field is present, the trimmed name, phone and state and the normalised e-mail are non-empty, and the password, class and exam are non-empty strings |
| AuthRoutes.RegisterFailure | routes/auth.js:110-125 | the catch block gives 400 with the e-mail message exactly for a duplicate e-mail with a non-empty value, gives the identifier retry message exactly for a duplicate `userID` with a non-empty value, and answers everything else, including a write-time duplicate phone or `_id` and a validation failure, with a 500 echoing the error |
| AuthRoutes.Register | routes/auth.js:38-126 | a missing or blank field gives the 400 and leaves the store alone; with the fields present, a document already holding the e-mail or the phone gives a 400 with the e-mail or the phone message and leaves the store alone; every non-200 reply leaves the store alone; a 200 appends exactly the requested document (trimmed fields, normalised e-mail, hashed password, `googleSignIn` false, defaults) under an `_id`, identifier, e-mail and phone no earlier document holds, and returns its token and public fields; the store stays valid; `AuthProperties.RegisterSucceeds` gives when the reply is 200 and `AuthProperties.RegisterRejectsUnknownEnum` the 500 for an unknown class or exam |
| AuthRoutes.CheckAndCreate | routes/auth.js:55-74 | with the fields present, a document already holding the normalised e-mail or the trimmed phone gives a 400 with the e-mail or the phone message and leaves the store alone; any other non-200 reply also leaves the store alone; a 200 is a complete enrolment; no reply yet means every candidate identifier the draws spell was taken; `AuthProperties.RegisterSucceeds` gives when the reply is 200 and `AuthProperties.RegisterRejectsUnknownEnum` the 500 for an unknown class or exam |
| AuthRoutes.NoMatchMeansFree | routes/auth.js:60-64 | when the `$or` lookup finds nothing, no stored document holds the e-mail or the phone |
| AuthRoutes.RegisterDraft | routes/auth.js:81-91 | the object handed to `new User` has its name, phone and state already trimmed and its e-mail already in normal form, so the schema's setters leave them alone; it carries the given identifier and the password's hash, with `googleSignIn` false |
| AuthRoutes.RegisterDraftAcceptable | routes/auth.js:81-93 | with the fields present and a generated identifier, the draft passes the schema's validators exactly when the class and the exam are among the enumerated values |
| AuthRoutes.SavedDraftIsRequested | routes/auth.js:81-91 | the schema's setters leave the handler's already normalised values unchanged, so the saved document is the one requested |
| AuthRoutes.CreateAccount | routes/auth.js:76-125 | after the checks pass, the write either fails with the store unchanged or appends the requested document, under an `_id`, identifier, e-mail and phone no earlier document holds, and replies 200 with its token and public fields; `AuthRoutes.CreateAccountSucceeds` and `AuthRoutes.CreateAccountRejectsUnknownEnum` say which of the two happens |
| AuthRoutes.CreateAccountSucceeds | routes/auth.js:76-109 | once the checks pass, the write succeeds with a 200 whenever both enum values are allowed and the new `_id` is fresh |
| AuthRoutes.CreateAccountRejectsUnknownEnum | routes/auth.js:81-124 | once the checks pass, a class or exam outside the enumerations fails validation at `save` and gets the 500 echoing the validation error, with the store unchanged |
| AuthRoutes.Enroll | routes/auth.js:93-109 | the reply to a successful save of the register draft is a complete enrolment: one new document as requested, with keys no earlier document holds, and a 200 carrying its token and public fields; validity is kept |
| AuthRoutes.Login | routes/auth.js:129-166 | missing fields give one 400; every other failure is the single `Invalid credentials.` 400; a 200 names a stored user with the normalised e-mail whose digest verifies the password, and carries that user's token and public fields |
| AuthRoutes.FetchUser | routes/auth.js:171-180 | 404 exactly when no document has the token's `_id`; otherwise 200 with that document minus its password |
| AuthRoutes.ChangePassword | routes/auth.js:183-216 | a body naming another user is 403 before anything else; missing passwords are the 400 next; every failure leaves the store alone; success passes every check for some document and replaces only its digest and `updatedAt`; the store stays valid |
| AuthProperties.EmailMessageWhenFirstMatchHoldsEmail | routes/auth.js:60-67 | when the first document matching the e-mail or phone holds the e-mail, register answers with the e-mail message and writes nothing |
| AuthProperties.PhoneMessageWhenFirstMatchHoldsOnlyPhone | routes/auth.js:60-70 | when the first matching document holds only the phone, the phone message wins even if a later document holds the e-mail |
| AuthProperties.RegisterSucceeds | routes/auth.js:38-109 | register replies 200 whenever the fields are present, both enum values are allowed, no document holds the e-mail or the phone, the identifier loop finds a free candidate and the new `_id` is fresh |
| AuthProperties.RegisterRejectsUnknownEnum | routes/auth.js:38-124 | with the fields present, no duplicate and a free identifier, a class or exam outside the enumerations makes register answer with the 500 echoing the validation error and store nothing |
| AuthProperties.RegisterAgainWithSameEmail | routes/auth.js:55-67 | after a registration, a second one with any spelling of the same e-mail is refused with the e-mail message, provided no document stored before the first registration holds the second request's phone |
| AuthProperties.RegisterTwice | routes/auth.js:38-67 | repeating a successful registration is refused as a duplicate e-mail |
| AuthProperties.LoginAfterRegister | routes/auth.js:129-161 | right after registering, logging in with the same password and any spelling of the e-mail returns exactly the registration's reply |
| AuthProperties.LoginAfterEnrolment | routes/auth.js:137-161 | login on a store just enrolled into returns the enrolment's token and public fields |
| AuthProperties.EnrolledEmailIsFound | routes/auth.js:137-140 | after enrolment, any spelling of the e-mail is not blank and finds the new document |
| AuthProperties.FetchAfterRegister | routes/auth.js:171-175 | on any store, the token a successful registration returns fetches the stored document with the registered identifier and e-mail |
| AuthProperties.LoginSucceedsExactly | routes/auth.js:137-148 | on a valid store, login succeeds exactly when some user has the normalised e-mail and a digest that verifies the password |
| AuthProperties.LoginFailureIsUniform | routes/auth.js:140-145 | an unknown e-mail and a wrong password get the identical `Invalid credentials.` reply |
| AuthProperties.LoginIgnoresEmailSpelling | routes/auth.js:137-140 | two e-mail spellings that normalise alike get the same login reply |
| AuthProperties.ChangePasswordCheckOrder | routes/auth.js:192-211 | after the identity and presence checks: unknown user is 404, then a wrong current password is 400, then a short new password is 400, and only when all pass is the digest replaced |
| AuthProperties.ChangePasswordRotatesCredential | routes/auth.js:196-209 | under an injective hash, after a change the old password no longer logs in and the new one does |
| AuthProperties.TokenSurvivesPasswordChange | routes/auth.js:205-211 | a password change does not revoke the token that made it: that token still fetches the user |
| AuthProperties.RegisterWriteNeverConflicts | routes/auth.js:113-124 | in a sequential run on a valid store with a fresh `_id`, the write never meets a duplicate key, so every 500 from register is a validation failure |
| AuthProperties.CreateAccountNeverConflicts | routes/auth.js:93-124 | once the pre-checks pass, the insert of the new document cannot clash, so a 500 can only come from validation |
| AuthProperties.FirstRegistrationExample | routes/auth.js:38-161 | on an empty store the sample registration succeeds, repeating it gets the duplicate-e-mail 400 with nothing written, and logging in with the e-mail padded with spaces returns the registration's reply |

## Left out

- `server.js` and `routes/paymentRoutes.js`: connection, CORS, static files and the payment controller are wiring around the core, not part of it.
- The token middleware (`middleware/auth`) is not part of this model. The handlers receive the token it verified, so the 401 replies are not modelled.
- AuthRoutes.GenerateToken: a token is just the `_id` it carries, so the function has no property of its own beyond that; the token round trip from register to fetch is `AuthProperties.FetchAfterRegister`.
- bcrypt and JWT internals: salting, the cost factor, bcrypt's 72-byte input limit, the signing secret and the expiry. The hasher is a parameter, `compare` is equality of digests, and a token is the `_id` it carries. A fixed hasher cannot express that two hashes of one password differ by salt.
- Store and library failures: thrown I/O errors, hashing or signing failures, and the `CastError` of an ill-formed `_id`. These are the 500 `Server error` replies of login, fetch and change-password.
- The content of a thrown error's `message`. Register's catch-all body is `RawError` holding the error itself.
- JSON bodies whose fields are not strings (numbers, objects, arrays). Every field is a string or absent.
- Lower-casing outside ASCII. `toLowerCase` is modelled on `A`-`Z` only.
- The concurrent race between the duplicate pre-check and the insert. The store is sequential, and the write-time duplicate mapping is modelled through `Insert`'s error.
- `console.error` logging, the `__v` version key, and the `collection` option.
- Clock and randomness. `Date.now` is the `now` parameter, the new `_id` is the `oid` parameter, and `Math.random` becomes the `draws` sequence.
- UserIdAllocator.GenerateUniqueUserID: the JavaScript loop runs until it finds a free candidate. The model stops when the supplied draws run out and returns `None`, which `Register` passes on as "no reply yet".
- UserStore.FindOne: MongoDB's `findOne` without a sort promises no order among matching documents, and an index scan may well return the e-mail match first. The model fixes the choice as the first match in natural (insertion) order. `AuthRoutes.CheckAndCreate` and `AuthRoutes.Register` promise a 400 with one of the two duplicate messages whichever document is picked. Only `AuthProperties.EmailMessageWhenFirstMatchHoldsEmail` and `AuthProperties.PhoneMessageWhenFirstMatchHoldsOnlyPhone` depend on the order.
- UserStore.SetPassword: the password change's `save` is modelled as an in-place update with no validators or index checks. The fields it leaves alone were valid already, and the new digest is not indexed.
- Field-level validators are not run on the password digest, whose type already guarantees it is present.

=== FILE: auth_properties.dfy ===
/** Properties that relate several handler calls, or a handler call to the
    store invariant: duplicate precedence, re-registration, login after
    registration, non-enumeration, the order of the change-password checks,
    and what a password change does to later logins and tokens. */
module AuthProperties {
  import opened Common
  import opened JsString
  import opened Crypto
  import opened UserModel
  import opened UserStore
  import opened UserIdAllocator
  import opened AuthRoutes

  /** The duplicate check answers with the e-mail message when the first
      document in natural order matching the e-mail or the phone holds the
      e-mail. */
  lemma EmailMessageWhenFirstMatchHoldsEmail(db: Store, req: RegisterRequest, env: Env, i: nat)
    requires !MissingRequired(req)
    requires i < |db| && db[i].email == NormalizeEmail(req.email.value)
    requires forall j :: 0 <= j < i ==>
      db[j].email != NormalizeEmail(req.email.value) && db[j].phone != Trim(req.phone.value)
    ensures Register(db, req, env) == Some(Exchange(Response(400, Message(MsgEmailRegistered)), db))
  {
    var q := ByEmailOrPhone(NormalizeEmail(req.email.value), Trim(req.phone.value));
    FindOneIsFirst(db, q, i);
  }

  /** The precedence of the e-mail message is per document: when an earlier
      document in natural order holds the phone, the phone message is
      returned even though a later document holds the e-mail. */
  lemma PhoneMessageWhenFirstMatchHoldsOnlyPhone(db: Store, req: RegisterRequest, env: Env, i: nat)
    requires !MissingRequired(req)
    requires i < |db| && db[i].phone == Trim(req.phone.value)
    requires db[i].email != NormalizeEmail(req.email.value)
    requires forall j :: 0 <= j < i ==>
      db[j].email != NormalizeEmail(req.email.value) && db[j].phone != Trim(req.phone.value)
    ensures Register(db, req, env) == Some(Exchange(Response(400, Message(MsgPhoneRegistered)), db))
  {
    var q := ByEmailOrPhone(NormalizeEmail(req.email.value), Trim(req.phone.value));
    FindOneIsFirst(db, q, i);
  }

  /** Register succeeds whenever the handler lets it: the fields are
      present, both enum values are allowed, no document holds the e-mail or
      the phone, the identifier loop finds a free candidate, and the new
      `_id` is fresh. */
  lemma RegisterSucceeds(db: Store, req: RegisterRequest, env: Env)
    requires !MissingRequired(req)
    requires AllowedClassName(req.studentClass.value) && AllowedExamName(req.exam.value)
    requires FindOne(db, ByEmailOrPhone(NormalizeEmail(req.email.value), Trim(req.phone.value))).None?
    requires GenerateUniqueUserID(db, env.draws).Some?
    requires forall i :: 0 <= i < |db| ==> db[i].oid != env.oid
    ensures Register(db, req, env).Some? && Register(db, req, env).value.response.status == 200
  {
    NoMatchMeansFree(db, NormalizeEmail(req.email.value), Trim(req.phone.value));
    var userID := GenerateUniqueUserID(db, env.draws).value;
    assert Register(db, req, env) == Some(CreateAccount(db, req, env, userID));
    CreateAccountSucceeds(db, req, env, userID);
  }

  /** Register answers an unknown class or exam with the 500 echoing the
      validation error, once the duplicate check and the identifier loop
      have passed; the store is unchanged. */
  lemma RegisterRejectsUnknownEnum(db: Store, req: RegisterRequest, env: Env)
    requires !MissingRequired(req)
    requires !(AllowedClassName(req.studentClass.value) && AllowedExamName(req.exam.value))
    requires FindOne(db, ByEmailOrPhone(NormalizeEmail(req.email.value), Trim(req.phone.value))).None?
    requires GenerateUniqueUserID(db, env.draws).Some?
    ensures Register(db, req, env).Some?
    ensures var x := Register(db, req, env).value;
      && x.db == db && x.response.status == 500
      && x.response.body.RawError? && x.response.body.error.ValidationError?
  {
    NoMatchMeansFree(db, NormalizeEmail(req.email.value), Trim(req.phone.value));
    var userID := GenerateUniqueUserID(db, env.draws).value;
    assert Register(db, req, env) == Some(CreateAccount(db, req, env, userID));
    CreateAccountRejectsUnknownEnum(db, req, env, userID);
  }

  /** After a successful registration, a second registration whose e-mail
      normalises to the same address (whatever its case and surrounding
      white space) is refused with the e-mail message, unless a document
      stored before the first registration holds the second phone. */
  lemma RegisterAgainWithSameEmail(db: Store, req: RegisterRequest, env: Env, req2: RegisterRequest, env2: Env)
    requires Register(db, req, env).Some?
    requires Register(db, req, env).value.response.status == 200
    requires !MissingRequired(req2)
    requires NormalizeEmail(req2.email.value) == NormalizeEmail(req.email.value)
    requires forall j :: 0 <= j < |db| ==> db[j].phone != Trim(req2.phone.value)
    ensures var db' := Register(db, req, env).value.db;
      Register(db', req2, env2) == Some(Exchange(Response(400, Message(MsgEmailRegistered)), db'))
  {
    var x := Register(db, req, env).value;
    assert Enrolled(db, req, env, x);
    forall j | 0 <= j < |db|
      ensures x.db[j].email != NormalizeEmail(req2.email.value) && x.db[j].phone != Trim(req2.phone.value)
    {
      assert x.db[j] == db[j];
    }
    EmailMessageWhenFirstMatchHoldsEmail(x.db, req2, env2, |db|);
  }

  /** Repeating a successful registration verbatim is refused as a
      duplicate e-mail. */
  lemma RegisterTwice(db: Store, req: RegisterRequest, env: Env, env2: Env)
    requires Register(db, req, env).Some?
    requires Register(db, req, env).value.response.status == 200
    ensures var db' := Register(db, req, env).value.db;
      Register(db', req, env2) == Some(Exchange(Response(400, Message(MsgEmailRegistered)), db'))
  {
    var x := Register(db, req, env).value;
    assert Enrolled(db, req, env, x);
    RegisterAgainWithSameEmail(db, req, env, req, env2);
  }

  /** Right after registering, logging in with the registered password and
      any spelling of the e-mail that normalises to the stored one returns
      the registered public fields. */
  lemma LoginAfterRegister(db: Store, req: RegisterRequest, env: Env, email: string)
    requires Register(db, req, env).Some?
    requires Register(db, req, env).value.response.status == 200
    requires NormalizeEmail(email) == NormalizeEmail(req.email.value)
    ensures var x := Register(db, req, env).value;
      Login(x.db, LoginRequest(Some(email), req.password), env.hash) == x.response
  {
    LoginAfterEnrolment(db, req, env, Register(db, req, env).value, email);
  }

  lemma LoginAfterEnrolment(db: Store, req: RegisterRequest, env: Env, x: Exchange, email: string)
    requires Enrolled(db, req, env, x)
    requires NormalizeEmail(email) == NormalizeEmail(req.email.value)
    ensures Login(x.db, LoginRequest(Some(email), req.password), env.hash) == x.response
  {
    EnrolledEmailIsFound(db, req, env, x, email);
  }

  /** The new document is the first, and only, one holding its e-mail, and
      any spelling of that e-mail is not blank. */
  lemma EnrolledEmailIsFound(db: Store, req: RegisterRequest, env: Env, x: Exchange, email: string)
    requires Enrolled(db, req, env, x)
    requires NormalizeEmail(email) == NormalizeEmail(req.email.value)
    ensures !Blank(Some(email))
    ensures FindOne(x.db, ByEmail(NormalizeEmail(email))) == Some(|db|)
  {
    BlankIffNormalizedEmpty(req.email.value);
    BlankIffNormalizedEmpty(email);
    var e := x.db[|db|].email;
    assert e == NormalizeEmail(email);
    assert forall j :: 0 <= j < |db| ==> db[j].email != e;
    FindOneAppended(db, x.db, ByEmail(e));
  }

  /** The token a registration returns fetches the document just stored:
      the same identifier and e-mail, and no password. */
  lemma FetchAfterRegister(db: Store, req: RegisterRequest, env: Env)
    requires Register(db, req, env).Some?
    requires Register(db, req, env).value.response.status == 200
    ensures var x := Register(db, req, env).value;
      && FetchUser(x.db, x.response.body.token).status == 200
      && FetchUser(x.db, x.response.body.token).body.profile.userID == x.response.body.user.userID
      && FetchUser(x.db, x.response.body.token).body.profile.email == x.response.body.user.email
  {
    var x := Register(db, req, env).value;
    assert Enrolled(db, req, env, x);
    var oid := x.db[|db|].oid;
    assert forall j :: 0 <= j < |db| ==> db[j].oid != oid;
    FindOneAppended(db, x.db, ById(oid));
  }

  /** With well-formed request fields and a valid store, login succeeds
      exactly when some stored user has the normalised e-mail and a digest
      that verifies the password. */
  lemma LoginSucceedsExactly(db: Store, req: LoginRequest, hash: Hasher)
    requires Valid(db)
    requires !Blank(req.email) && Truthy(req.password)
    ensures Login(db, req, hash).status == 200 <==>
      exists i :: 0 <= i < |db| && db[i].email == NormalizeEmail(req.email.value)
                  && Verify(hash, req.password.value, db[i].password)
  {
    var e := NormalizeEmail(req.email.value);
    if i :| 0 <= i < |db| && db[i].email == e && Verify(hash, req.password.value, db[i].password) {
      FindOneUnique(db, ByEmail(e), i);
    }
  }

  /** Login gives no hint whether an account exists: an unknown e-mail and
      a known e-mail with a wrong password get the identical reply. */
  lemma LoginFailureIsUniform(db: Store, req: LoginRequest, hash: Hasher)
    requires Valid(db)
    requires !Blank(req.email) && Truthy(req.password)
    ensures (forall i :: 0 <= i < |db| ==> db[i].email != NormalizeEmail(req.email.value))
            ==> Login(db, req, hash) == Response(400, Message(MsgInvalidCredentials))
    ensures (exists i :: 0 <= i < |db| && db[i].email == NormalizeEmail(req.email.value)
                         && !Verify(hash, req.password.value, db[i].password))
            ==> Login(db, req, hash) == Response(400, Message(MsgInvalidCredentials))
  {
    var e := NormalizeEmail(req.email.value);
    if i :| 0 <= i < |db| && db[i].email == e && !Verify(hash, req.password.value, db[i].password) {
      FindOneUnique(db, ByEmail(e), i);
    }
  }

  /** Login looks only at the normalised e-mail: two spellings that differ
      in case or surrounding white space get the same reply. */
  lemma LoginIgnoresEmailSpelling(db: Store, e1: string, e2: string, password: Field, hash: Hasher)
    requires NormalizeEmail(e1) == NormalizeEmail(e2)
    ensures Login(db, LoginRequest(Some(e1), password), hash) == Login(db, LoginRequest(Some(e2), password), hash)
  {
    BlankIffNormalizedEmpty(e1);
    BlankIffNormalizedEmpty(e2);
  }

  /** After the identity and presence checks, change-password looks the
      user up (404 if absent), then verifies the current password (400),
      then the new password's length (400), and only then writes. */
  lemma ChangePasswordCheckOrder(db: Store, claims: Token, req: ChangePasswordRequest, hash: Hasher, now: Time)
    requires Valid(db)
    requires req.userId == Some(claims.id) && Truthy(req.currentPassword) && Truthy(req.newPassword)
    ensures (forall i :: 0 <= i < |db| ==> db[i].oid != claims.id) ==>
      ChangePassword(db, claims, req, hash, now) == Exchange(Response(404, Message(MsgUserNotFound)), db)
    ensures forall i :: 0 <= i < |db| && db[i].oid == claims.id ==>
      && (!Verify(hash, req.currentPassword.value, db[i].password) ==>
            ChangePassword(db, claims, req, hash, now) == Exchange(Response(400, Message(MsgIncorrectPassword)), db))
      && (Verify(hash, req.currentPassword.value, db[i].password)
          && Utf16Length(req.newPassword.value) < MinPasswordLength ==>
            ChangePassword(db, claims, req, hash, now) == Exchange(Response(400, Message(MsgPasswordTooShort)), db))
      && (ChangeAllowed(db, i, claims, req, hash) ==>
            ChangePassword(db, claims, req, hash, now)
            == Exchange(Response(200, Message(MsgPasswordChanged)), SetPassword(db, i, hash(req.newPassword.value), now)))
  {
    forall i | 0 <= i < |db| && db[i].oid == claims.id
      ensures FindOne(db, ById(claims.id)) == Some(i)
    {
      FindOneUnique(db, ById(claims.id), i);
    }
  }

  /** After a successful change under an injective hash, logging in with the
      old password fails and logging in with the new one succeeds. */
  lemma ChangePasswordRotatesCredential(db: Store, claims: Token, req: ChangePasswordRequest, hash: Hasher, now: Time, i: nat)
    requires Valid(db) && Injective(hash)
    requires ChangeAllowed(db, i, claims, req, hash)
    requires req.currentPassword != req.newPassword
    ensures var db' := ChangePassword(db, claims, req, hash, now).db;
      && Login(db', LoginRequest(Some(db[i].email), req.currentPassword), hash)
         == Response(400, Message(MsgInvalidCredentials))
      && Login(db', LoginRequest(Some(db[i].email), req.newPassword), hash).status == 200
  {
    ChangePasswordCheckOrder(db, claims, req, hash, now);
    var db' := SetPassword(db, i, hash(req.newPassword.value), now);
    assert ChangePassword(db, claims, req, hash, now).db == db';
    assert Valid(db');
    var e := db[i].email;
    assert WellFormed(db[i]);
    assert NormalizeEmail(e) == e && e != [];
    assert db'[i].email == e;
    LoginFailureIsUniform(db', LoginRequest(Some(e), req.currentPassword), hash);
    assert !Verify(hash, req.currentPassword.value, db'[i].password);
    LoginSucceedsExactly(db', LoginRequest(Some(e), req.newPassword), hash);
    assert Verify(hash, req.newPassword.value, db'[i].password);
  }

  /** Tokens are not revoked by a password change: the token that made the
      change still fetches the user afterwards. */
  lemma TokenSurvivesPasswordChange(db: Store, claims: Token, req: ChangePasswordRequest, hash: Hasher, now: Time)
    requires ChangePassword(db, claims, req, hash, now).response.status == 200
    ensures FetchUser(ChangePassword(db, claims, req, hash, now).db, claims).status == 200
  {
  }

  /** In a sequential run on a valid store, with an `_id` no document holds,
      register never meets a duplicate-key error at write time: every 500 it
      returns is a validation failure of the enum fields. */
  lemma RegisterWriteNeverConflicts(db: Store, req: RegisterRequest, env: Env)
    requires Valid(db)
    requires forall i :: 0 <= i < |db| ==> db[i].oid != env.oid
    requires Register(db, req, env).Some?
    ensures var resp := Register(db, req, env).value.response;
      resp.status == 500 ==> resp.body.RawError? && resp.body.error.ValidationError?
  {
    if !MissingRequired(req) {
      var email := NormalizeEmail(req.email.value);
      var phone := Trim(req.phone.value);
      if FindOne(db, ByEmailOrPhone(email, phone)).None? {
        NoMatchMeansFree(db, email, phone);
        var userID := GenerateUniqueUserID(db, env.draws).value;
        assert Register(db, req, env) == Some(CreateAccount(db, req, env, userID));
        CreateAccountNeverConflicts(db, req, env, userID);
      }
    }
  }

  lemma CreateAccountNeverConflicts(db: Store, req: RegisterRequest, env: Env, userID: string)
    requires !MissingRequired(req) && IsUserID(userID) && !Taken(db, userID)
    requires forall i :: 0 <= i < |db| ==>
      db[i].email != NormalizeEmail(req.email.value) && db[i].phone != Trim(req.phone.value)
    requires forall i :: 0 <= i < |db| ==> db[i].oid != env.oid
    ensures var resp := CreateAccount(db, req, env, userID).response;
      resp.status == 500 ==> resp.body.RawError? && resp.body.error.ValidationError?
  {
    var c := Construct(RegisterDraft(req, env, userID), env.oid, env.now);
    if c.Ok? {
      var u := c.value;
      SavedDraftIsRequested(u, req, env, userID);
      FreshKeys(db, u, req, env, userID);
      InsertFreshKeys(db, u);
    }
  }

  /** The registration of the worked example: Asha K, 11th class, JEE. */
  const ExampleRequest: RegisterRequest :=
    RegisterRequest(Some("Asha K"), Some("Asha@Test.com"), Some("9999999999"),
                    Some("secret12"), Some("11th"), Some("JEE"), Some("UP"))

  const ExampleEnv: Env := Env(p => Digest(p), [0, 0, 0, 0, 0, 0, 0, 0, 0], "oid-1", 0)

  /** The example request passes the presence check, and its e-mail has no
      surrounding white space. */
  lemma ExampleRequestComplete()
    ensures !MissingRequired(ExampleRequest) && IsTrimmed(ExampleRequest.email.value)
  {
    var req := ExampleRequest;
    assert IsTrimmed(req.fullName.value) && IsTrimmed(req.email.value);
    assert IsTrimmed(req.phone.value) && IsTrimmed(req.state.value);
  }

  /** The example request registers on the empty store. */
  lemma ExampleRegisters()
    ensures Register([], ExampleRequest, ExampleEnv).Some?
    ensures Register([], ExampleRequest, ExampleEnv).value.response.status == 200
  {
    ExampleRequestComplete();
    assert GenerateUniqueUserID([], ExampleEnv.draws).Some?;
    RegisterSucceeds([], ExampleRequest, ExampleEnv);
  }

  /** The example e-mail padded with spaces normalises like the e-mail. */
  lemma ExamplePaddedEmail()
    ensures NormalizeEmail(" " + ExampleRequest.email.value + " ") == NormalizeEmail(ExampleRequest.email.value)
  {
    var core := ExampleRequest.email.value;
    ExampleRequestComplete();
    assert AllSpace(" ");
    NormalizeEmailIgnoresDecoration(" ", core, " ");
    LowerKeepsTrimmed(core);
  }

  /** A first registration on an empty store succeeds, repeating it is
      refused as a duplicate e-mail, and the registered user can log in with
      the e-mail padded with spaces. */
  lemma FirstRegistrationExample()
    ensures var r := Register([], ExampleRequest, ExampleEnv);
      && r.Some? && r.value.response.status == 200
      && Register(r.value.db, ExampleRequest, ExampleEnv)
         == Some(Exchange(Response(400, Message(MsgEmailRegistered)), r.value.db))
      && Login(r.value.db, LoginRequest(Some(" " + ExampleRequest.email.value + " "), Some("secret12")),
               ExampleEnv.hash)
         == r.value.response
  {
    ExampleRegisters();
    RegisterTwice([], ExampleRequest, ExampleEnv, ExampleEnv);
    ExamplePaddedEmail();
    LoginAfterRegister([], ExampleRequest, ExampleEnv, " " + ExampleRequest.email.value + " ");
  }
}

=== FILE: auth_routes.dfy ===
/** The authentication handlers: register, login, fetch the current user and
    change password. Each is a pure function from the store and the request
    to the response and the store after the request. Hashing is the
    caller-supplied `Hasher`; the token-verifying middleware is assumed to
    have run and to hand over the token it verified. */
module AuthRoutes {
  import opened Common
  import opened JsString
  import opened Crypto
  import opened UserModel
  import opened UserStore
  import opened UserIdAllocator

  const MsgAllFieldsRequired: string := "All fields (including phone & state) are required."
  const MsgEmailRegistered: string := "Email already registered; please log in instead."
  const MsgPhoneRegistered: string := "Phone number already registered; please log in instead."
  const MsgUserIDConflict: string := "Could not generate a unique userID; please try again."
  const MsgCredentialsRequired: string := "Email and password are required."
  const MsgInvalidCredentials: string := "Invalid credentials."
  const MsgUserNotFound: string := "User not found"
  const MsgForbidden: string := "Forbidden"
  const MsgChangeFieldsRequired: string := "All fields required."
  const MsgIncorrectPassword: string := "Current password is incorrect"
  const MsgPasswordTooShort: string := "New password too short"
  const MsgPasswordChanged: string := "Password changed successfully"

  /** The shortest new password change-password accepts, in UTF-16 units. */
  const MinPasswordLength: nat := 8

  /** A signed bearer token; its payload is the user's `_id`. Signing,
      secret and expiry are not modelled. */
  datatype Token = Token(id: ObjectId)

  /** `generateToken(userId)`: the payload is exactly the `_id` it was
      signed for. */
  function GenerateToken(id: ObjectId): Token {
    Token(id)
  }

  /** The profile fields register and login return. There is no password
      field to fill. */
  datatype PublicUser = PublicUser(
    userID: string,
    fullName: string,
    email: string,
    phone: string,
    studentClass: StudentClass,
    exam: Exam,
    state: string)

  function Public(u: User): PublicUser {
    PublicUser(u.userID, u.fullName, u.email, u.phone, u.studentClass, u.exam, u.state)
  }

  /** A document selected with `-password`: every field but the password. */
  datatype UserView = UserView(
    oid: ObjectId,
    userID: string,
    fullName: string,
    email: string,
    phone: string,
    studentClass: StudentClass,
    exam: Exam,
    state: string,
    photoURL: Option<string>,
    dateOfBirth: string,
    bio: string,
    school: string,
    examTarget: string,
    updatedAt: Time,
    googleSignIn: bool,
    createdAt: Time)

  function View(u: User): UserView {
    UserView(u.oid, u.userID, u.fullName, u.email, u.phone, u.studentClass, u.exam,
             u.state, u.photoURL, u.dateOfBirth, u.bio, u.school, u.examTarget,
             u.updatedAt, u.googleSignIn, u.createdAt)
  }

  /** The JSON body of a response. `RawError` is the catch-all of register,
      which echoes the thrown error's own message. */
  datatype Body =
    | Message(text: string)
    | RawError(error: SaveError)
    | Session(token: Token, user: PublicUser)
    | Profile(profile: UserView)

  datatype Response = Response(status: nat, body: Body)

  /** A response together with the store it leaves behind. */
  datatype Exchange = Exchange(response: Response, db: Store)

  datatype RegisterRequest = RegisterRequest(
    fullName: Field,
    email: Field,
    phone: Field,
    password: Field,
    studentClass: Field,
    exam: Field,
    state: Field)

  datatype LoginRequest = LoginRequest(email: Field, password: Field)

  datatype ChangePasswordRequest = ChangePasswordRequest(
    userId: Field,
    currentPassword: Field,
    newPassword: Field)

  /** What a register request draws on besides the store: the hasher, the
      random draws of the identifier loop, the `_id` the new document gets,
      and the clock. */
  datatype Env = Env(hash: Hasher, draws: seq<Draw>, oid: ObjectId, now: Time)

  /** The register handler's presence check. When it passes, every field
      is present, the four trimmed fields and the normalised e-mail are not
      empty, and the password and both enum fields are non-empty strings. */
  predicate MissingRequired(req: RegisterRequest)
    ensures !MissingRequired(req) ==>
      && req.fullName.Some? && Trim(req.fullName.value) != []
      && req.email.Some? && NormalizeEmail(req.email.value) != []
      && req.phone.Some? && Trim(req.phone.value) != []
      && req.state.Some? && Trim(req.state.value) != []
      && req.password.Some? && req.password.value != []
      && req.studentClass.Some? && req.studentClass.value != []
      && req.exam.Some? && req.exam.value != []
  {
    BlankIffNormalizedEmpty(if req.email.Some? then req.email.value else []);
    || Blank(req.fullName)
    || Blank(req.email)
    || Blank(req.phone)
    || !Truthy(req.password)
    || !Truthy(req.studentClass)
    || !Truthy(req.exam)
    || Blank(req.state)
  }

  /** The document a successful registration stores: a fresh well-formed
      identifier, the trimmed name, phone and state, the normalised e-mail,
      the hash of the password, the requested enum values, no Google
      sign-in, the schema defaults and the request's `_id` and time. */
  predicate StoredAsRequested(u: User, req: RegisterRequest, env: Env) {
    && !MissingRequired(req)
    && IsUserID(u.userID)
    && u.fullName == Trim(req.fullName.value)
    && u.email == NormalizeEmail(req.email.value)
    && u.phone == Trim(req.phone.value)
    && u.password == env.hash(req.password.value)
    && StudentClassName(u.studentClass) == req.studentClass.value
    && ExamName(u.exam) == req.exam.value
    && u.state == Trim(req.state.value)
    && !u.googleSignIn
    && Defaulted(u)
    && u.oid == env.oid && u.createdAt == env.now && u.updatedAt == env.now
  }

  /** A successful registration: the store gains exactly one document at
      its end, stored as requested, whose e-mail, phone and identifier no
      earlier document held, and under an `_id` no earlier document has;
      the reply carries its token and public fields. */
  predicate Enrolled(db: Store, req: RegisterRequest, env: Env, x: Exchange) {
    && |x.db| == |db| + 1
    && (forall j :: 0 <= j < |db| ==> x.db[j] == db[j])
    && StoredAsRequested(x.db[|db|], req, env)
    && !Taken(db, x.db[|db|].userID)
    && (forall i :: 0 <= i < |db| ==> db[i].email != x.db[|db|].email && db[i].phone != x.db[|db|].phone)
    && (forall i :: 0 <= i < |db| ==> db[i].oid != x.db[|db|].oid)
    && x.response == Response(200, Session(GenerateToken(x.db[|db|].oid), Public(x.db[|db|])))
  }

  /** The catch block of register: a duplicate e-mail at write time reads
      as the duplicate-e-mail reply, a duplicate identifier as a 500 asking
      to retry, and anything else (a duplicate phone or `_id`, a validation
      failure) as a 500 echoing the error. */
  function RegisterFailure(e: SaveError): (r: Response)
    ensures r.status == 400 <==> e.DuplicateKey? && e.index == EmailIndex && e.value != []
    ensures r.status == 400 ==> r.body == Message(MsgEmailRegistered)
    ensures r.status == 400 || r.status == 500
    ensures r.body == Message(MsgUserIDConflict) <==> e.DuplicateKey? && e.index == UserIDIndex && e.value != []
    ensures !e.DuplicateKey? ==> r == Response(500, RawError(e))
    ensures r.status == 500 && r.body != Message(MsgUserIDConflict) ==> r.body == RawError(e)
  {
    match e
    case DuplicateKey(index, value) =>
      if index == EmailIndex && value != [] then Response(400, Message(MsgEmailRegistered))
      else if index == UserIDIndex && value != [] then Response(500, Message(MsgUserIDConflict))
      else Response(500, RawError(e))
    case ValidationError(_) => Response(500, RawError(e))
  }

  /** A string of the generated format has no white space at either end. */
  lemma UserIDIsTrimmed(s: string)
    requires IsUserID(s)
    ensures IsTrimmed(s)
  {
  }

  /** POST /register. `None` means the identifier loop is still running when
      the draws run out. A missing field is a 400 with the store unchanged;
      every reply but 200 leaves the store unchanged; a 200 means the store
      gained exactly the requested document; validity is kept. */
  function Register(db: Store, req: RegisterRequest, env: Env): (r: Option<Exchange>)
    ensures MissingRequired(req) ==> r == Some(Exchange(Response(400, Message(MsgAllFieldsRequired)), db))
    ensures !MissingRequired(req)
            && FindOne(db, ByEmailOrPhone(NormalizeEmail(req.email.value), Trim(req.phone.value))).Some? ==>
      r.Some? && r.value.db == db && r.value.response.status == 400
      && r.value.response.body in {Message(MsgEmailRegistered), Message(MsgPhoneRegistered)}
    ensures r.Some? && r.value.response.status != 200 ==> r.value.db == db
    ensures r.Some? && r.value.response.status == 200 ==> Enrolled(db, req, env, r.value)
    ensures r.Some? && Valid(db) ==> Valid(r.value.db)
    ensures r.None? ==> !MissingRequired(req)
                        && forall j :: 0 <= j < Rounds(env.draws) ==> Taken(db, CandidateAt(env.draws, j))
  {
    if MissingRequired(req) then
      Some(Exchange(Response(400, Message(MsgAllFieldsRequired)), db))
    else
      CheckAndCreate(db, req, env)
  }

  /** Register once its fields are present: the duplicate check on the
      normalised e-mail and phone, then the identifier loop, then the write.
      The check reads the first document in natural order whose e-mail or
      phone matches, and answers with the e-mail message when that document's
      e-mail matches, the phone message otherwise. (The handler tests the
      phone too before answering, but a document the query matched that does
      not hold the e-mail holds the phone, so its fall-through past both
      tests cannot happen.) */
  function CheckAndCreate(db: Store, req: RegisterRequest, env: Env): (r: Option<Exchange>)
    requires !MissingRequired(req)
    ensures FindOne(db, ByEmailOrPhone(NormalizeEmail(req.email.value), Trim(req.phone.value))).Some? ==>
      r.Some? && r.value.db == db && r.value.response.status == 400
      && r.value.response.body in {Message(MsgEmailRegistered), Message(MsgPhoneRegistered)}
    ensures r.Some? && r.value.response.status != 200 ==> r.value.db == db
    ensures r.Some? && r.value.response.status == 200 ==> Enrolled(db, req, env, r.value)
    ensures r.Some? && Valid(db) ==> Valid(r.value.db)
    ensures r.None? ==> forall j :: 0 <= j < Rounds(env.draws) ==> Taken(db, CandidateAt(env.draws, j))
  {
    var email := NormalizeEmail(req.email.value);
    var phone := Trim(req.phone.value);
    match FindOne(db, ByEmailOrPhone(email, phone))
    case Some(i) =>
      var text := if db[i].email == email then MsgEmailRegistered else MsgPhoneRegistered;
      Some(Exchange(Response(400, Message(text)), db))
    case None =>
      NoMatchMeansFree(db, email, phone);
      match GenerateUniqueUserID(db, env.draws)
      case None => None
      case Some(userID) => Some(CreateAccount(db, req, env, userID))
  }

  lemma NoMatchMeansFree(db: Store, email: string, phone: string)
    requires FindOne(db, ByEmailOrPhone(email, phone)).None?
    ensures forall i :: 0 <= i < |db| ==> db[i].email != email && db[i].phone != phone
  {
  }

  /** The object register hands to `new User({...})`. Its strings are
      already in the form the schema's setters produce, and the presence
      check has already made every `required` validator pass for a
      generated identifier: only the two `enum` validators can reject it. */
  function RegisterDraft(req: RegisterRequest, env: Env, userID: string): (d: Draft)
    requires !MissingRequired(req)
    ensures d.userID == userID
    ensures IsTrimmed(d.fullName) && IsNormalEmail(d.email) && IsTrimmed(d.phone) && IsTrimmed(d.state)
    ensures d.password == env.hash(req.password.value) && !d.googleSignIn
  {
    Draft(
      userID := userID,
      fullName := Trim(req.fullName.value),
      email := NormalizeEmail(req.email.value),
      phone := Trim(req.phone.value),
      password := env.hash(req.password.value),
      studentClass := req.studentClass.value,
      exam := req.exam.value,
      state := Trim(req.state.value),
      googleSignIn := false)
  }

  /** A draft built from a complete request with a well-formed identifier
      passes the schema's validators exactly when the class and the exam are
      among the enumerated values: every required string is non-blank once
      trimmed, so only the two enumerations can reject it. */
  lemma RegisterDraftAcceptable(req: RegisterRequest, env: Env, userID: string)
    requires !MissingRequired(req) && IsUserID(userID)
    ensures Acceptable(RegisterDraft(req, env, userID)) <==>
      AllowedClassName(req.studentClass.value) && AllowedExamName(req.exam.value)
  {
    BlankIffNormalizedEmpty(req.email.value);
    TrimmedNotAllSpace(Trim(req.fullName.value));
    TrimmedNotAllSpace(NormalizeEmail(req.email.value));
    TrimmedNotAllSpace(Trim(req.phone.value));
    TrimmedNotAllSpace(Trim(req.state.value));
    UserIDIsTrimmed(userID);
    TrimmedNotAllSpace(userID);
  }

  /** The schema's setters leave register's already normalised values as
      they are, so the saved document is the one requested. */
  lemma SavedDraftIsRequested(u: User, req: RegisterRequest, env: Env, userID: string)
    requires !MissingRequired(req) && IsUserID(userID)
    requires Carries(u, RegisterDraft(req, env, userID)) && Defaulted(u)
    requires u.oid == env.oid && u.createdAt == env.now && u.updatedAt == env.now
    ensures StoredAsRequested(u, req, env) && u.userID == userID
  {
    UserIDIsTrimmed(userID);
  }

  /** The reply to a failed save: the catch block's response, never a
      success, over the store as it was. */
  function Refuse(db: Store, e: SaveError): (x: Exchange)
    ensures x.response.status != 200 && x.db == db
  {
    Exchange(RegisterFailure(e), db)
  }

  /** The part of register after the duplicate check and the identifier
      loop: hash, build, save, reply. */
  function CreateAccount(db: Store, req: RegisterRequest, env: Env, userID: string): (x: Exchange)
    requires !MissingRequired(req) && IsUserID(userID) && !Taken(db, userID)
    requires forall i :: 0 <= i < |db| ==>
      db[i].email != NormalizeEmail(req.email.value) && db[i].phone != Trim(req.phone.value)
    ensures x.response.status != 200 ==> x.db == db
    ensures x.response.status == 200 ==> Enrolled(db, req, env, x)
    ensures Valid(db) ==> Valid(x.db)
  {
    match Save(db, RegisterDraft(req, env, userID), env.oid, env.now)
    case Err(e) =>
      Refuse(db, e)
    case Ok(saved) =>
      Enroll(db, req, env, userID, saved)
  }

  /** Once the checks have passed, the write succeeds whenever both enum
      values are allowed and the new `_id` is fresh. */
  lemma CreateAccountSucceeds(db: Store, req: RegisterRequest, env: Env, userID: string)
    requires !MissingRequired(req) && IsUserID(userID) && !Taken(db, userID)
    requires forall i :: 0 <= i < |db| ==>
      db[i].email != NormalizeEmail(req.email.value) && db[i].phone != Trim(req.phone.value)
    requires AllowedClassName(req.studentClass.value) && AllowedExamName(req.exam.value)
    requires forall i :: 0 <= i < |db| ==> db[i].oid != env.oid
    ensures CreateAccount(db, req, env, userID).response.status == 200
  {
    var d := RegisterDraft(req, env, userID);
    RegisterDraftAcceptable(req, env, userID);
    var u := Construct(d, env.oid, env.now).value;
    SavedDraftIsRequested(u, req, env, userID);
    FreshKeys(db, u, req, env, userID);
    InsertFreshKeys(db, u);
  }

  /** A class or exam outside the schema's enumerations passes the
      handler's presence check but fails validation at the write: the reply
      is the catch-all 500 echoing the validation error, and nothing is
      stored. */
  lemma CreateAccountRejectsUnknownEnum(db: Store, req: RegisterRequest, env: Env, userID: string)
    requires !MissingRequired(req) && IsUserID(userID) && !Taken(db, userID)
    requires forall i :: 0 <= i < |db| ==>
      db[i].email != NormalizeEmail(req.email.value) && db[i].phone != Trim(req.phone.value)
    requires !(AllowedClassName(req.studentClass.value) && AllowedExamName(req.exam.value))
    ensures var x := CreateAccount(db, req, env, userID);
      && x.db == db && x.response.status == 500
      && x.response.body.RawError? && x.response.body.error.ValidationError?
  {
    RegisterDraftAcceptable(req, env, userID);
  }

  /** The keys of the requested document are new to a store that passed
      the duplicate check, the identifier loop and holds no document with
      the new `_id`. */
  lemma FreshKeys(db: Store, u: User, req: RegisterRequest, env: Env, userID: string)
    requires StoredAsRequested(u, req, env) && u.userID == userID && !Taken(db, userID)
    requires forall i :: 0 <= i < |db| ==>
      db[i].email != NormalizeEmail(req.email.value) && db[i].phone != Trim(req.phone.value)
    requires forall i :: 0 <= i < |db| ==> db[i].oid != env.oid
    ensures forall i :: 0 <= i < |db| ==> db[i].oid != u.oid
    ensures FindOne(db, ByUserID(u.userID)).None?
    ensures forall i :: 0 <= i < |db| ==> db[i].email != u.email && db[i].phone != u.phone
  {
  }

  /** The reply to a successful save of the register draft: the token and
      public fields of the saved document, over the store it was saved to.
      Such a save is a complete enrolment. */
  function Enroll(db: Store, req: RegisterRequest, env: Env, userID: string, saved: Saved): (x: Exchange)
    requires !MissingRequired(req) && IsUserID(userID) && !Taken(db, userID)
    requires forall i :: 0 <= i < |db| ==>
      db[i].email != NormalizeEmail(req.email.value) && db[i].phone != Trim(req.phone.value)
    requires Save(db, RegisterDraft(req, env, userID), env.oid, env.now) == Ok(saved)
    ensures Enrolled(db, req, env, x)
    ensures Valid(db) ==> Valid(x.db)
  {
    SavedDraftIsRequested(saved.user, req, env, userID);
    assert saved.db == db + [saved.user];
    assert !Clashes(db, saved.user, IdIndex);
    Exchange(Response(200, Session(GenerateToken(saved.user.oid), Public(saved.user))), saved.db)
  }

  /** POST /login. Missing fields give one 400, every other failure gives
      the single 400 `Invalid credentials.`, and a 200 names a stored user
      whose e-mail is the normalised one and whose digest verifies the
      password. The store is never written. */
  function Login(db: Store, req: LoginRequest, hash: Hasher): (r: Response)
    ensures Blank(req.email) || !Truthy(req.password) ==> r == Response(400, Message(MsgCredentialsRequired))
    ensures r.status != 200 ==> r == Response(400, Message(MsgCredentialsRequired))
                                 || r == Response(400, Message(MsgInvalidCredentials))
    ensures r.status == 200 ==>
      exists i :: 0 <= i < |db| && db[i].email == NormalizeEmail(req.email.value)
                  && Verify(hash, req.password.value, db[i].password)
                  && r.body == Session(GenerateToken(db[i].oid), Public(db[i]))
  {
    if Blank(req.email) || !Truthy(req.password) then
      Response(400, Message(MsgCredentialsRequired))
    else
      match FindOne(db, ByEmail(NormalizeEmail(req.email.value)))
      case None => Response(400, Message(MsgInvalidCredentials))
      case Some(i) =>
        if !Verify(hash, req.password.value, db[i].password) then
          Response(400, Message(MsgInvalidCredentials))
        else
          var u := db[i];
          assert u.email == NormalizeEmail(req.email.value);
          Response(200, Session(GenerateToken(u.oid), Public(u)))
  }

  /** GET /user, for the token the middleware verified: 404 exactly when no
      document has the token's `_id`, otherwise that document without its
      password. */
  function FetchUser(db: Store, claims: Token): (r: Response)
    ensures r.status == 404 <==> forall i :: 0 <= i < |db| ==> db[i].oid != claims.id
    ensures r.status == 404 ==> r.body == Message(MsgUserNotFound)
    ensures r.status != 404 ==>
      r.status == 200 && exists i :: 0 <= i < |db| && db[i].oid == claims.id && r.body == Profile(View(db[i]))
  {
    match FindOne(db, ById(claims.id))
    case None => Response(404, Message(MsgUserNotFound))
    case Some(i) => Response(200, Profile(View(db[i])))
  }

  /** Every check of change-password passes for the document `i`. */
  predicate ChangeAllowed(db: Store, i: nat, claims: Token, req: ChangePasswordRequest, hash: Hasher) {
    && req.userId == Some(claims.id)
    && Truthy(req.currentPassword) && Truthy(req.newPassword)
    && i < |db| && db[i].oid == claims.id
    && Verify(hash, req.currentPassword.value, db[i].password)
    && Utf16Length(req.newPassword.value) >= MinPasswordLength
  }

  /** POST /change-password, for the token the middleware verified. A body
      naming another user is forbidden before anything else is looked at;
      missing passwords come next; every failure leaves the store as it was;
      success replaces only the matched document's digest and `updatedAt`. */
  function ChangePassword(db: Store, claims: Token, req: ChangePasswordRequest, hash: Hasher, now: Time): (x: Exchange)
    ensures req.userId != Some(claims.id) ==> x == Exchange(Response(403, Message(MsgForbidden)), db)
    ensures req.userId == Some(claims.id) && (!Truthy(req.currentPassword) || !Truthy(req.newPassword))
            ==> x == Exchange(Response(400, Message(MsgChangeFieldsRequired)), db)
    ensures x.response.status != 200 ==> x.db == db
    ensures x.response.status == 200 ==>
      x.response.body == Message(MsgPasswordChanged)
      && exists i :: ChangeAllowed(db, i, claims, req, hash)
                     && x.db == SetPassword(db, i, hash(req.newPassword.value), now)
    ensures Valid(db) ==> Valid(x.db)
  {
    if req.userId != Some(claims.id) then
      Exchange(Response(403, Message(MsgForbidden)), db)
    else if !Truthy(req.currentPassword) || !Truthy(req.newPassword) then
      Exchange(Response(400, Message(MsgChangeFieldsRequired)), db)
    else
      match FindOne(db, ById(req.userId.value))
      case None => Exchange(Response(404, Message(MsgUserNotFound)), db)
      case Some(i) =>
        if !Verify(hash, req.currentPassword.value, db[i].password) then
          Exchange(Response(400, Message(MsgIncorrectPassword)), db)
        else if Utf16Length(req.newPassword.value) < MinPasswordLength then
          Exchange(Response(400, Message(MsgPasswordTooShort)), db)
        else
          Exchange(Response(200, Message(MsgPasswordChanged)),
                   SetPassword(db, i, hash(req.newPassword.value), now))
  }
}

=== FILE: common.dfy ===
/** Failure-carrying wrappers shared by every module of the model. */
module Common {

  /** A value that may be absent: a lookup that found nothing, a request
      field that was `undefined`, a loop that has not returned yet. */
  datatype Option<+T> = None | Some(value: T)

  /** The outcome of an operation that can throw. */
  datatype Result<+T, +E> = Ok(value: T) | Err(error: E)
}

=== FILE: crypto.dfy ===
/** Password hashing as the handlers use it (`bcrypt.hash` / `bcrypt.compare`).
    The hash algorithm itself is not modelled: a hasher is any function from
    plaintext to digest, supplied by the caller, and `compare` is "hashing the
    candidate gives the stored digest". */
module Crypto {

  /** An encoded bcrypt digest. Its type differs from the plaintext's, so a
      stored digest can never be a plaintext password. */
  datatype Digest = Digest(encoded: string)

  /** `bcrypt.hash`, left uninterpreted. */
  type Hasher = string -> Digest

  /** The idealised one-way hash: distinct passwords give distinct digests. */
  ghost predicate Injective(hash: Hasher) {
    forall p, q :: hash(p) == hash(q) ==> p == q
  }

  /** `bcrypt.compare(plain, digest)`: the candidate is accepted exactly
      when hashing it reproduces the stored digest, so a digest always
      accepts the password it was made from. */
  predicate Verify(hash: Hasher, plain: string, digest: Digest) {
    hash(plain) == digest
  }

  /** Under an injective hash a digest verifies exactly the password it was
      made from. */
  lemma VerifyExactlyTheHashedPassword(hash: Hasher, p: string, q: string)
    requires Injective(hash)
    ensures Verify(hash, p, hash(q)) <==> p == q
  {
  }
}

=== FILE: js_string.dfy ===
/** The JavaScript string primitives the authentication handlers rely on:
    `String.prototype.trim`, `String.prototype.toLowerCase`, the UTF-16
    `length` of a string, and the truthiness of a request-body field. */
module JsString {
  import opened Common

  /** The WhiteSpace and LineTerminator code points of ECMAScript
      (sections 12.2 and 12.3 of ECMA-262), which `trim` removes. */
  predicate IsSpace(c: char) {
    || c == '\t' || c == '\n' || c == '\U{000B}' || c == '\U{000C}' || c == '\r'
    || c == ' ' || c == '\U{00A0}' || c == '\U{1680}'
    || ('\U{2000}' <= c <= '\U{200A}')
    || c == '\U{2028}' || c == '\U{2029}' || c == '\U{202F}' || c == '\U{205F}'
    || c == '\U{3000}' || c == '\U{FEFF}'
  }

  predicate AllSpace(s: string) {
    forall i :: 0 <= i < |s| ==> IsSpace(s[i])
  }

  /** Neither end of `s` is white space. */
  predicate IsTrimmed(s: string) {
    s == [] || (!IsSpace(s[0]) && !IsSpace(s[|s| - 1]))
  }

  /** The first index at or after `i` that does not hold white space. */
  function SkipSpace(s: string, i: nat): (j: nat)
    requires i <= |s|
    ensures i <= j <= |s|
    ensures forall k :: i <= k < j ==> IsSpace(s[k])
    ensures j < |s| ==> !IsSpace(s[j])
    decreases |s| - i
  {
    if i < |s| && IsSpace(s[i]) then SkipSpace(s, i + 1) else i
  }

  /** The end of the last run of non-space characters at or after `lo` and
      before `j`, scanning backwards from `j`. */
  function SkipSpaceBack(s: string, lo: nat, j: nat): (e: nat)
    requires lo <= j <= |s|
    ensures lo <= e <= j
    ensures forall k :: e <= k < j ==> IsSpace(s[k])
    ensures lo < e ==> !IsSpace(s[e - 1])
    decreases j
  {
    if lo < j && IsSpace(s[j - 1]) then SkipSpaceBack(s, lo, j - 1) else j
  }

  /** `s.trim()`: the result has no white space at either end, is empty
      exactly when `s` is all white space, and leaves an already trimmed
      string alone. */
  function Trim(s: string): (r: string)
    ensures IsTrimmed(r)
    ensures |r| <= |s|
    ensures r == [] <==> AllSpace(s)
    ensures IsTrimmed(s) ==> r == s
  {
    var a := SkipSpace(s, 0);
    var b := SkipSpaceBack(s, a, |s|);
    assert a < |s| ==> !IsSpace(s[a]);
    assert IsTrimmed(s) ==> a == 0 && b == |s| by {
      if IsTrimmed(s) && s != [] {
        assert !IsSpace(s[0]) && !IsSpace(s[|s| - 1]);
      }
    }
    s[a..b]
  }

  /** Every string is its trimmed form wrapped in white space. */
  lemma TrimDecomposition(s: string) returns (pre: string, post: string)
    ensures AllSpace(pre) && AllSpace(post)
    ensures s == pre + Trim(s) + post
  {
    var a := SkipSpace(s, 0);
    var b := SkipSpaceBack(s, a, |s|);
    pre := s[..a];
    post := s[b..];
    assert s == s[..a] + s[a..b] + s[b..];
  }

  /** Skipping forward from inside a white-space prefix stops where the
      prefix ends. */
  lemma {:induction false} SkipSpaceOver(pre: string, rest: string, i: nat)
    requires AllSpace(pre) && i <= |pre|
    requires rest != [] && !IsSpace(rest[0])
    ensures SkipSpace(pre + rest, i) == |pre|
    decreases |pre| - i
  {
    var s := pre + rest;
    if i < |pre| {
      assert s[i] == pre[i];
      SkipSpaceOver(pre, rest, i + 1);
    } else {
      assert s[i] == rest[0];
    }
  }

  /** Scanning back over trailing white space stops just after the last
      non-space character. */
  lemma SkipSpaceBackOver(s: string, lo: nat, e: nat, j: nat)
    requires lo < e <= j <= |s|
    requires !IsSpace(s[e - 1])
    requires forall k :: e <= k < j ==> IsSpace(s[k])
    ensures SkipSpaceBack(s, lo, j) == e
  {
  }

  /** Whatever white space surrounds a trimmed core, `trim` returns exactly
      that core. */
  lemma TrimStrips(pre: string, t: string, post: string)
    requires AllSpace(pre) && AllSpace(post) && IsTrimmed(t)
    ensures Trim(pre + t + post) == t
  {
    var s := pre + t + post;
    if t == [] {
      assert AllSpace(s) by {
        assert forall i :: 0 <= i < |s| ==>
          s[i] == (if i < |pre| then pre[i] else post[i - |pre|]);
      }
    } else {
      assert s == pre + (t + post);
      SkipSpaceOver(pre, t + post, 0);
      var e := |pre| + |t|;
      assert s[e - 1] == t[|t| - 1];
      assert forall k :: e <= k < |s| ==> s[k] == post[k - e];
      SkipSpaceBackOver(s, |pre|, e, |s|);
      assert s[|pre|..e] == t;
    }
  }

  predicate IsUpper(c: char) {
    'A' <= c <= 'Z'
  }

  /** `toLowerCase` of one character, restricted to the ASCII letters. */
  function LowerChar(c: char): (r: char)
    ensures !IsUpper(r)
    ensures IsSpace(r) <==> IsSpace(c)
  {
    if IsUpper(c) then (c as int + 32) as char else c
  }

  predicate IsLowerCase(s: string) {
    forall i :: 0 <= i < |s| ==> !IsUpper(s[i])
  }

  /** `s.toLowerCase()`: same length, no upper-case letter left, every
      character that is not an upper-case letter kept where it was. */
  function ToLower(s: string): (r: string)
    ensures |r| == |s| && IsLowerCase(r)
    ensures forall i :: 0 <= i < |s| && !IsUpper(s[i]) ==> r[i] == s[i]
    ensures forall i :: 0 <= i < |s| && IsUpper(s[i]) ==> r[i] as int == s[i] as int + 32
    ensures IsLowerCase(s) ==> r == s
  {
    seq(|s|, i requires 0 <= i < |s| => LowerChar(s[i]))
  }

  lemma ToLowerConcat(a: string, b: string)
    ensures ToLower(a + b) == ToLower(a) + ToLower(b)
  {
  }

  /** The form in which the model stores and compares e-mail addresses. */
  predicate IsNormalEmail(e: string) {
    IsTrimmed(e) && IsLowerCase(e)
  }

  /** `email.toLowerCase().trim()`: the result is in normal form, equals the
      input when that already is, and ignores case and surrounding white space. */
  function NormalizeEmail(e: string): (r: string)
    ensures IsNormalEmail(r)
    ensures IsNormalEmail(e) ==> r == e
    ensures r == [] <==> AllSpace(e)
  {
    var l := ToLower(e);
    assert AllSpace(l) <==> AllSpace(e) by {
      assert forall i :: 0 <= i < |e| ==> (IsSpace(l[i]) <==> IsSpace(e[i]));
    }
    Trim(l)
  }

  /** Lower-casing and trimming commute, so the schema's `lowercase` and
      `trim` setters agree with the handler's normalisation whatever order
      they run in. */
  lemma LowerTrimCommute(s: string)
    ensures Trim(ToLower(s)) == ToLower(Trim(s))
  {
    var pre, post := TrimDecomposition(s);
    NormalizeEmailIgnoresDecoration(pre, Trim(s), post);
  }

  /** Lowercasing keeps a trimmed string trimmed. */
  lemma LowerKeepsTrimmed(t: string)
    requires IsTrimmed(t)
    ensures IsTrimmed(ToLower(t))
  {
  }

  /** Two addresses that differ only in letter case and surrounding white
      space normalise to the same address. */
  lemma NormalizeEmailIgnoresDecoration(pre: string, e: string, post: string)
    requires AllSpace(pre) && AllSpace(post) && IsTrimmed(e)
    ensures NormalizeEmail(pre + e + post) == ToLower(e)
  {
    ToLowerConcat(pre + e, post);
    ToLowerConcat(pre, e);
    assert AllSpace(ToLower(pre)) && AllSpace(ToLower(post));
    LowerKeepsTrimmed(e);
    TrimStrips(ToLower(pre), ToLower(e), ToLower(post));
  }

  /** JavaScript's `length`: the number of UTF-16 code units, where a
      character outside the Basic Multilingual Plane takes two. */
  function Utf16Length(s: string): (n: nat)
    ensures |s| <= n <= 2 * |s|
    ensures (forall i :: 0 <= i < |s| ==> s[i] as int < 0x1_0000) ==> n == |s|
    ensures (forall i :: 0 <= i < |s| ==> s[i] as int >= 0x1_0000) ==> n == 2 * |s|
    ensures |s| == 1 ==> n == (if s[0] as int < 0x1_0000 then 1 else 2)
  {
    if s == [] then 0
    else (if s[0] as int < 0x1_0000 then 1 else 2) + Utf16Length(s[1..])
  }

  /** The UTF-16 length of a concatenation is the sum of the lengths, so
      with the one-character case it fixes the count of any text: one unit
      per Basic Multilingual Plane character, two per astral one. */
  lemma {:induction false} Utf16LengthConcat(a: string, b: string)
    ensures Utf16Length(a + b) == Utf16Length(a) + Utf16Length(b)
  {
    if a == [] {
      assert a + b == b;
    } else {
      assert (a + b)[1..] == a[1..] + b;
      Utf16LengthConcat(a[1..], b);
    }
  }

  /** Mixed text counts per character: `"ab"` followed by an emoji is four
      UTF-16 units, as `"ab\u{1F600}".length` is in JavaScript. */
  lemma Utf16LengthExample()
    ensures Utf16Length("ab" + "\U{1F600}") == 4
  {
  }

  /** A request-body field: `undefined` (`None`) or a string. */
  type Field = Option<string>

  /** JavaScript truthiness of a field: the only falsy strings are
      `undefined` and `""`, and a field that is not blank is truthy. */
  predicate Truthy(f: Field)
    ensures !Blank(f) ==> Truthy(f)
  {
    f.Some? && f.value != []
  }

  /** `!f?.trim()`: the field is absent or holds only white space. */
  predicate Blank(f: Field)
    ensures Blank(f) <==> f.None? || AllSpace(f.value)
  {
    f.None? || Trim(f.value) == []
  }

  /** A non-empty string with no white space at either end is not all
      white space. */
  lemma TrimmedNotAllSpace(t: string)
    requires IsTrimmed(t) && t != []
    ensures !AllSpace(t)
  {
    assert !IsSpace(t[0]);
  }

  /** A present field is blank exactly when it normalises to the empty
      e-mail address. */
  lemma BlankIffNormalizedEmpty(s: string)
    ensures Blank(Some(s)) <==> NormalizeEmail(s) == []
  {
  }
}

=== FILE: user_id.dfy ===
/** `generateUniqueUserID`: public identifiers of the form `Edu-` followed by
    nine characters drawn from `A-Z0-9`, retried until no stored user holds
    the candidate. `Math.random` is replaced by a supplied sequence of draws,
    each already scaled to an index into the alphabet; nine draws make one
    candidate. The JavaScript loop is unbounded; here it runs while the
    draws last, and `None` stands for "still looping". */
module UserIdAllocator {
  import opened Common
  import opened UserModel
  import opened UserStore

  const Alphabet: string := "ABCDEFGHIJKLMNOPQRSTUVWXYZ0123456789"
  const Prefix: string := "Edu-"
  const RandomLength: nat := 9

  /** `Math.floor(Math.random() * ALPHANUM.length)`: an index into the
      36-character alphabet. */
  type Draw = d: int | 0 <= d < 36

  /** A character of `[A-Z0-9]`. */
  predicate IsAlphanumeric(c: char) {
    'A' <= c <= 'Z' || '0' <= c <= '9'
  }

  /** `ALPHANUM.charAt(d)`, computed from the layout of the alphabet. */
  function Spell(d: Draw): (c: char)
    ensures IsAlphanumeric(c)
  {
    if d < 26 then ('A' as int + d) as char else ('0' as int + (d - 26)) as char
  }

  /** The alphabet constant is laid out as `Spell` assumes. */
  lemma AlphabetLayout()
    ensures |Alphabet| == 36
    ensures forall d: Draw :: Alphabet[d] == Spell(d)
  {
  }

  /** The format every generated identifier has: `^Edu-[A-Z0-9]{9}$`. */
  predicate IsUserID(s: string) {
    && |s| == |Prefix| + RandomLength
    && s[..|Prefix|] == Prefix
    && forall i :: |Prefix| <= i < |s| ==> IsAlphanumeric(s[i])
  }

  /** Some stored user already holds `id` (`User.findOne({ userID })`). */
  predicate Taken(db: Store, id: string) {
    FindOne(db, ByUserID(id)).Some?
  }

  /** The candidate spelt by one round of nine draws. */
  function Candidate(round: seq<Draw>): (c: string)
    requires |round| == RandomLength
    ensures IsUserID(c)
    ensures forall i :: 0 <= i < RandomLength ==> c[|Prefix| + i] == Alphabet[round[i]]
  {
    AlphabetLayout();
    Prefix + seq(RandomLength, i requires 0 <= i < RandomLength => Alphabet[round[i]])
  }

  /** The number of complete rounds of nine draws. */
  function Rounds(draws: seq<Draw>): nat {
    |draws| / RandomLength
  }

  /** The candidate spelt by round `k` of the draws. */
  function CandidateAt(draws: seq<Draw>, k: nat): (c: string)
    requires k < Rounds(draws)
    ensures IsUserID(c)
  {
    Candidate(draws[k * RandomLength..(k + 1) * RandomLength])
  }

  /** The retry loop from round `k` on: the round whose candidate it
      returns is the first at or after `k` whose candidate is free, and it
      finds none exactly when every remaining candidate is taken. */
  function FirstFreeRound(db: Store, draws: seq<Draw>, k: nat): (r: Option<nat>)
    requires k <= Rounds(draws)
    ensures r.Some? ==> k <= r.value < Rounds(draws) && !Taken(db, CandidateAt(draws, r.value))
    ensures r.Some? ==> forall j :: k <= j < r.value ==> Taken(db, CandidateAt(draws, j))
    ensures r.None? <==> forall j :: k <= j < Rounds(draws) ==> Taken(db, CandidateAt(draws, j))
    decreases Rounds(draws) - k
  {
    if k == Rounds(draws) then None
    else if Taken(db, CandidateAt(draws, k)) then FirstFreeRound(db, draws, k + 1)
    else Some(k)
  }

  /** `generateUniqueUserID()`: a well-formed identifier that no stored user
      holds, or `None` when every candidate the draws spell is taken. */
  function GenerateUniqueUserID(db: Store, draws: seq<Draw>): (r: Option<string>)
    ensures r.Some? ==> IsUserID(r.value) && !Taken(db, r.value)
    ensures r.None? <==> forall j :: 0 <= j < Rounds(draws) ==> Taken(db, CandidateAt(draws, j))
  {
    match FirstFreeRound(db, draws, 0)
    case None => None
    case Some(k) => Some(CandidateAt(draws, k))
  }

  /** The draws that spell an alphanumeric string. */
  function Spelling(t: string): (ds: seq<Draw>)
    requires forall i :: 0 <= i < |t| ==> IsAlphanumeric(t[i])
    ensures |ds| == |t|
    ensures forall i :: 0 <= i < |t| ==> Spell(ds[i]) == t[i]
  {
    if t == [] then [] else [DrawOf(t[0])] + Spelling(t[1..])
  }

  /** The draw that spells an alphanumeric character. */
  function DrawOf(c: char): (d: Draw)
    requires IsAlphanumeric(c)
    ensures Spell(d) == c
  {
    if 'A' <= c <= 'Z' then c as int - 'A' as int else c as int - '0' as int + 26
  }

  /** Every identifier of the right format is spelt by some round of draws,
      so the format predicate describes exactly the generator's range. */
  lemma EveryUserIDIsACandidate(s: string) returns (round: seq<Draw>)
    requires IsUserID(s)
    ensures |round| == RandomLength && Candidate(round) == s
  {
    AlphabetLayout();
    round := Spelling(s[|Prefix|..]);
    assert s == Prefix + s[|Prefix|..];
  }
}

=== FILE: user_model.dfy ===
/** The `User` schema of the credential store: field types, the two enums,
    required fields, the `trim`/`lowercase` setters and the defaults. */
module UserModel {
  import opened Common
  import opened JsString
  import opened Crypto

  datatype StudentClass = Eleventh | Twelfth | Dropper

  datatype Exam = JEE | NEET

  /** The enum value the schema stores for each class. */
  function StudentClassName(c: StudentClass): string {
    match c
    case Eleventh => "11th"
    case Twelfth => "12th"
    case Dropper => "Dropper"
  }

  function ExamName(e: Exam): string {
    match e
    case JEE => "JEE"
    case NEET => "NEET"
  }

  /** The `enum` validator of `studentClass`: a string is accepted exactly
      when it names a class, and then it yields that class. */
  function ParseStudentClass(s: string): (r: Option<StudentClass>)
    ensures forall c :: r == Some(c) <==> StudentClassName(c) == s
  {
    if s == "11th" then Some(Eleventh)
    else if s == "12th" then Some(Twelfth)
    else if s == "Dropper" then Some(Dropper)
    else None
  }

  /** The `enum` validator of `exam`. */
  function ParseExam(s: string): (r: Option<Exam>)
    ensures forall e :: r == Some(e) <==> ExamName(e) == s
  {
    if s == "JEE" then Some(JEE)
    else if s == "NEET" then Some(NEET)
    else None
  }

  /** The store's primary key `_id`, in the string form a token carries. */
  type ObjectId = string

  /** A clock reading (`Date.now`), in milliseconds. */
  type Time = nat

  /** A stored user document. `photoURL` is `None` for the schema's `null`. */
  datatype User = User(
    oid: ObjectId,
    userID: string,
    fullName: string,
    email: string,
    phone: string,
    password: Digest,
    studentClass: StudentClass,
    exam: Exam,
    state: string,
    photoURL: Option<string>,
    dateOfBirth: string,
    bio: string,
    school: string,
    examTarget: string,
    updatedAt: Time,
    googleSignIn: bool,
    createdAt: Time)

  /** A required, trimmed string field holds something besides white space. */
  predicate Present(s: string) {
    s != [] && IsTrimmed(s)
  }

  /** What the schema guarantees of every stored document: the required
      string fields are present and trimmed, and the e-mail is lower case.
      The enum fields and `password` are guaranteed by their types. */
  predicate WellFormed(u: User) {
    && Present(u.userID)
    && Present(u.fullName)
    && Present(u.email) && IsNormalEmail(u.email)
    && Present(u.phone)
    && Present(u.state)
  }

  /** The optional profile fields hold their schema defaults. */
  predicate Defaulted(u: User) {
    && u.photoURL == None
    && u.dateOfBirth == ""
    && u.bio == ""
    && u.school == ""
    && u.examTarget == ""
  }

  /** The plain object handed to `new User({...})`, before the schema's
      setters, casts and validators have run. */
  datatype Draft = Draft(
    userID: string,
    fullName: string,
    email: string,
    phone: string,
    password: Digest,
    studentClass: string,
    exam: string,
    state: string,
    googleSignIn: bool)

  /** A document path that can fail validation. */
  datatype Path = UserIDPath | FullNamePath | EmailPath | PhonePath
                | StudentClassPath | ExamPath | StatePath

  /** The values the `studentClass` enum allows. */
  predicate AllowedClassName(s: string) {
    s in {"11th", "12th", "Dropper"}
  }

  /** The values the `exam` enum allows. */
  predicate AllowedExamName(s: string) {
    s in {"JEE", "NEET"}
  }

  /** The draft satisfies every `required` and `enum` validator once the
      setters have run, stated without the validator functions. */
  predicate Acceptable(d: Draft) {
    && !AllSpace(d.userID)
    && !AllSpace(d.fullName)
    && !AllSpace(d.email)
    && !AllSpace(d.phone)
    && !AllSpace(d.state)
    && AllowedClassName(d.studentClass)
    && AllowedExamName(d.exam)
  }

  /** The stored document `u` carries the draft `d`'s values after the
      setters: trimmed strings, a lower-cased trimmed e-mail, enum values
      spelled as in the draft. */
  predicate Carries(u: User, d: Draft) {
    && u.userID == Trim(d.userID)
    && u.fullName == Trim(d.fullName)
    && u.email == NormalizeEmail(d.email)
    && u.phone == Trim(d.phone)
    && u.password == d.password
    && StudentClassName(u.studentClass) == d.studentClass
    && ExamName(u.exam) == d.exam
    && u.state == Trim(d.state)
    && u.googleSignIn == d.googleSignIn
  }

  /** The paths whose validator rejects the draft, after the setters. */
  function Violations(d: Draft): set<Path> {
    (if Trim(d.userID) == [] then {UserIDPath} else {})
    + (if Trim(d.fullName) == [] then {FullNamePath} else {})
    + (if NormalizeEmail(d.email) == [] then {EmailPath} else {})
    + (if Trim(d.phone) == [] then {PhonePath} else {})
    + (if ParseStudentClass(d.studentClass).None? then {StudentClassPath} else {})
    + (if ParseExam(d.exam).None? then {ExamPath} else {})
    + (if Trim(d.state) == [] then {StatePath} else {})
  }

  /** `new User(draft)` followed by the validation `save` runs: the setters,
      the enum casts, the `required` and `enum` validators, the defaults and
      the `Date.now` timestamps. Either the document is accepted, well formed,
      carrying the draft and the defaults, or it is rejected naming at least
      one failing path; it is accepted exactly when the draft is acceptable. */
  function Construct(d: Draft, oid: ObjectId, now: Time): (r: Result<User, set<Path>>)
    ensures r.Ok? <==> Acceptable(d)
    ensures r.Ok? ==> WellFormed(r.value) && Carries(r.value, d) && Defaulted(r.value)
    ensures r.Ok? ==> r.value.oid == oid && r.value.createdAt == now && r.value.updatedAt == now
    ensures r.Err? ==> r.error != {}
  {
    var bad := Violations(d);
    if bad != {} then Err(bad)
    else
      Ok(User(
        oid := oid,
        userID := Trim(d.userID),
        fullName := Trim(d.fullName),
        email := NormalizeEmail(d.email),
        phone := Trim(d.phone),
        password := d.password,
        studentClass := ParseStudentClass(d.studentClass).value,
        exam := ParseExam(d.exam).value,
        state := Trim(d.state),
        photoURL := None,
        dateOfBirth := "",
        bio := "",
        school := "",
        examTarget := "",
        updatedAt := now,
        googleSignIn := d.googleSignIn,
        createdAt := now))
  }
}

=== FILE: user_store.dfy ===
/** The `User Data` collection: documents in natural order, the queries the
    handlers issue, the unique indexes, and the two writes (insert of a new
    document, password update of an existing one). */
module UserStore {
  import opened Common
  import opened JsString
  import opened Crypto
  import opened UserModel

  type Store = seq<User>

  /** The filters of `findOne` / `findById` used by the handlers. */
  datatype Query =
    | ById(oid: ObjectId)
    | ByUserID(userID: string)
    | ByEmail(email: string)
    | ByEmailOrPhone(email: string, phone: string)

  predicate Matches(u: User, q: Query) {
    match q
    case ById(oid) => u.oid == oid
    case ByUserID(id) => u.userID == id
    case ByEmail(e) => u.email == e
    case ByEmailOrPhone(e, p) => u.email == e || u.phone == p
  }

  /** `findOne(q)`: the position of the first document in natural order
      that matches, or `None` when no document matches. */
  function FindOne(db: Store, q: Query): (r: Option<nat>)
    ensures r.Some? ==> r.value < |db| && Matches(db[r.value], q)
    ensures r.Some? ==> forall j :: 0 <= j < r.value ==> !Matches(db[j], q)
    ensures r.None? <==> forall j :: 0 <= j < |db| ==> !Matches(db[j], q)
  {
    FindFrom(db, q, 0)
  }

  function FindFrom(db: Store, q: Query, from: nat): (r: Option<nat>)
    requires from <= |db|
    ensures r.Some? ==> from <= r.value < |db| && Matches(db[r.value], q)
    ensures r.Some? ==> forall j :: from <= j < r.value ==> !Matches(db[j], q)
    ensures r.None? <==> forall j :: from <= j < |db| ==> !Matches(db[j], q)
    decreases |db| - from
  {
    if from == |db| then None
    else if Matches(db[from], q) then Some(from)
    else FindFrom(db, q, from + 1)
  }

  /** The collection's unique indexes: the implicit one on `_id` and the
      schema's on `userID`, `email` and `phone`. */
  datatype UniqueIndex = IdIndex | UserIDIndex | EmailIndex | PhoneIndex

  function Key(u: User, k: UniqueIndex): string {
    match k
    case IdIndex => u.oid
    case UserIDIndex => u.userID
    case EmailIndex => u.email
    case PhoneIndex => u.phone
  }

  /** No two documents share a value of any unique index. */
  ghost predicate Unique(db: Store) {
    forall i, j, k :: 0 <= i < j < |db| ==> Key(db[i], k) != Key(db[j], k)
  }

  /** The store invariant: unique keys and schema-valid documents. */
  ghost predicate Valid(db: Store) {
    && Unique(db)
    && forall i :: 0 <= i < |db| ==> WellFormed(db[i])
  }

  /** A matching document with no match before it is the one `findOne`
      returns. */
  lemma FindOneIsFirst(db: Store, q: Query, i: nat)
    requires i < |db| && Matches(db[i], q)
    requires forall j :: 0 <= j < i ==> !Matches(db[j], q)
    ensures FindOne(db, q) == Some(i)
  {
  }

  /** A document appended behind documents that all miss `q` is the one
      `findOne(q)` returns, when it matches. */
  lemma FindOneAppended(db: Store, ext: Store, q: Query)
    requires |ext| == |db| + 1 && Matches(ext[|db|], q)
    requires forall j :: 0 <= j < |db| ==> ext[j] == db[j] && !Matches(db[j], q)
    ensures FindOne(ext, q) == Some(|db|)
  {
  }

  /** The unique index a single-key query reads. */
  function QueryIndex(q: Query): UniqueIndex
    requires !q.ByEmailOrPhone?
  {
    match q
    case ById(_) => IdIndex
    case ByUserID(_) => UserIDIndex
    case ByEmail(_) => EmailIndex
  }

  /** On a store with unique keys, a single-key query returns the one
      document that matches it. */
  lemma FindOneUnique(db: Store, q: Query, i: nat)
    requires Unique(db) && !q.ByEmailOrPhone?
    requires i < |db| && Matches(db[i], q)
    ensures FindOne(db, q) == Some(i)
  {
    forall j | 0 <= j < i ensures !Matches(db[j], q) {
      assert Key(db[j], QueryIndex(q)) != Key(db[i], QueryIndex(q));
    }
    FindOneIsFirst(db, q, i);
  }

  /** Some stored document already holds `u`'s value of index `k`. */
  predicate Clashes(db: Store, u: User, k: UniqueIndex) {
    exists i :: 0 <= i < |db| && Key(db[i], k) == Key(u, k)
  }

  /** Why a `save` throws: the validators rejected the document, or a unique
      index already holds one of its values (driver code 11000, with the
      offending key and value as `keyValue`). */
  datatype SaveError =
    | ValidationError(paths: set<Path>)
    | DuplicateKey(index: UniqueIndex, value: string)

  /** The order in which the insert reports a violated unique index. */
  function Rank(k: UniqueIndex): nat {
    match k
    case IdIndex => 0
    case UserIDIndex => 1
    case EmailIndex => 2
    case PhoneIndex => 3
  }

  /** Inserting a document: it is appended exactly when no unique index
      clashes; otherwise the first clashing index (by `Rank`) is reported
      with the new document's value, and the store is left as it was. An
      insert into a valid store of a well-formed document keeps it valid. */
  function Insert(db: Store, u: User): (r: Result<Store, SaveError>)
    ensures r.Ok? <==> forall k :: !Clashes(db, u, k)
    ensures r.Ok? ==> r.value == db + [u]
    ensures r.Err? ==> r.error.DuplicateKey? && Clashes(db, u, r.error.index)
    ensures r.Err? ==> r.error.value == Key(u, r.error.index)
    ensures r.Err? ==> forall k :: Rank(k) < Rank(r.error.index) ==> !Clashes(db, u, k)
    ensures r.Ok? && Valid(db) && WellFormed(u) ==> Valid(r.value)
  {
    if Clashes(db, u, IdIndex) then Err(DuplicateKey(IdIndex, u.oid))
    else if Clashes(db, u, UserIDIndex) then Err(DuplicateKey(UserIDIndex, u.userID))
    else if Clashes(db, u, EmailIndex) then Err(DuplicateKey(EmailIndex, u.email))
    else if Clashes(db, u, PhoneIndex) then Err(DuplicateKey(PhoneIndex, u.phone))
    else
      var r := db + [u];
      assert forall i, k :: 0 <= i < |db| ==> Key(db[i], k) != Key(u, k) by {
        forall i, k | 0 <= i < |db| ensures Key(db[i], k) != Key(u, k) {
          assert !Clashes(db, u, k);
        }
      }
      Ok(r)
  }

  /** A document whose four keys are all new to the store inserts. */
  lemma InsertFreshKeys(db: Store, u: User)
    requires forall i :: 0 <= i < |db| ==> db[i].oid != u.oid
    requires FindOne(db, ByUserID(u.userID)).None?
    requires forall i :: 0 <= i < |db| ==> db[i].email != u.email && db[i].phone != u.phone
    ensures Insert(db, u).Ok?
  {
  }

  datatype Saved = Saved(db: Store, user: User)

  /** `new User(draft).save()`: validation first, then the insert. On
      success the store gains exactly the constructed document at its end. */
  function Save(db: Store, d: Draft, oid: ObjectId, now: Time): (r: Result<Saved, SaveError>)
    ensures !Acceptable(d) ==> r.Err? && r.error.ValidationError?
    ensures r.Ok? ==> r.value.db == db + [r.value.user]
    ensures r.Ok? ==> Carries(r.value.user, d) && Defaulted(r.value.user) && WellFormed(r.value.user)
    ensures r.Ok? ==> r.value.user.oid == oid && r.value.user.createdAt == now && r.value.user.updatedAt == now
    ensures r.Ok? && Valid(db) ==> Valid(r.value.db)
    ensures r.Ok? ==> forall k :: !Clashes(db, r.value.user, k)
    ensures r.Err? && r.error.DuplicateKey? ==> Acceptable(d) && Clashes(db, Construct(d, oid, now).value, r.error.index)
    ensures r.Err? && r.error.ValidationError? ==> !Acceptable(d)
    ensures Acceptable(d) && (forall k :: !Clashes(db, Construct(d, oid, now).value, k)) ==> r.Ok?
  {
    match Construct(d, oid, now)
    case Err(paths) => Err(ValidationError(paths))
    case Ok(u) =>
      match Insert(db, u)
      case Ok(db') => Ok(Saved(db', u))
      case Err(e) => Err(e)
  }

  /** The password change's `user.save()`: document `i` gets the new digest
      and `updatedAt`, every other field of it and every other document stay
      as they were, and validity is kept. */
  function SetPassword(db: Store, i: nat, digest: Digest, now: Time): (r: Store)
    requires i < |db|
    ensures |r| == |db|
    ensures r[i].password == digest && r[i].updatedAt == now
    ensures r[i].(password := db[i].password, updatedAt := db[i].updatedAt) == db[i]
    ensures forall j :: 0 <= j < |db| && j != i ==> r[j] == db[j]
    ensures Valid(db) ==> Valid(r)
  {
    var r := db[i := db[i].(password := digest, updatedAt := now)];
    assert forall j, k :: 0 <= j < |db| ==> Key(r[j], k) == Key(db[j], k);
    r
  }
}
